=== FILE: README.md ===
# Set game engine — a verified model

This project models the rules engine of the card game *Set* (the Swift
package `SetGameEngine`). Each card has four attributes — color, fill, shape
and a count from 1 to 3 — and three cards form a *set* when, in every
attribute, their values are all equal or all different. The engine:

- builds the 81-card deck;
- moves cards from a stock to a table, in rounds of up to 12 or 15 cards;
- takes found sets off the table;
- searches the table for one set or for all sets, by generating every
  3-combination of the cards on the table.

The model is split into modules that follow the source files:

| module | file | models |
|---|---|---|
| `Cards` | `cards.dfy` | `Card.swift`: the attribute enums and their `<`, the card order `<` and `==` |
| `CardSort` | `card_sort.dfy` | `sorted()` on cards, as `findSet` uses it to compare two triples |
| `ArrayExtensions` | `array_extensions.dfy` | `Array+Extensions.swift`: removal by value, `uniqueElements`, the optional subscript |
| `Combinatorics` | `combinations.dfy` | `combinations(source:takenBy:)` |
| `SetRules` | `set_rules.dfy` | `isSet(of:)` and the four `setOf*` helpers |
| `Deck` | `deck.dfy` | the deck that `init` builds, as an 81-card sequence |
| `GameEngine` | `engine.dfy` | `findSet`, `findAllSets`, and the `Engine` object with its stock and table |

Modelling choices:

- `Card` is a Swift class whose fields are never reassigned, so it is a
  datatype here. Its `==` compares all four fields, which is Dafny's
  structural equality; `Cards.CardEqIsStructural` proves the two agree.
  Every removal by value and every comparison of sorted arrays therefore
  uses `==` on the datatype.
- The `Engine` is a class with fields `cardStock` and `cardsOnTable` of
  type `seq<Card>`. A ghost multiset `outOfPlay` collects the cards that
  left the game. The invariant `Valid()` states that stock, table and
  out-of-play cards together are exactly the deck.
- Swift arrays are values. A `mutating` array method is therefore a method
  that takes the array and returns its new value together with the
  method's own result. The engine assigns that new value back to its field.
- Every `shuffled()` becomes a `shuffled` parameter. `IsShuffleOf` requires
  it to hold the same elements as what is shuffled, in any order. The
  contracts hold for every order.
- `prefix(through: n - 1)` traps when the array has fewer than `n`
  elements. `draw`, `addCards` and `getCardsFromStock` therefore require
  the stock to hold enough cards.
- `sorted()` is modelled by insertion sort. `CardSort.SortedIsUnique`
  proves that a sorted arrangement of given cards is unique, so any
  correct sort gives the same result. The card order is a strict total
  order (`Cards.CardTrichotomy`, `Cards.CardLessTransitive`).

Behaviour of the code worth noting:

- `setFound(set:)` does not check that the cards form a set. It removes
  them from the table unconditionally, as `removeFromTable` does.
- `draw()` and `addCards()` always take exactly `12 - |table|` (or
  `15 - |table|`) cards. They trap when the stock holds fewer, so that case
  is excluded by a precondition.
- `combinations([], 0)` is `[[]]`, while a non-empty source taken by 0
  gives `[]`. The test for a source of exactly `takenBy` elements comes
  before the emptiness test.
- Whether `findSet` with an exclusion returns nil does not depend on the
  shuffle. `GameEngine.FindSetNone` proves that nil comes back exactly when
  no combination is a set, or there is more than one combination and every
  set holds the same cards as `except`. So nil always comes back for fewer
  than 3 cards, where there are no combinations. With a single combination
  (exactly three cards) the exclusion is not applied, so the excluded triple
  itself is returned when it is a set. Only which set is returned depends
  on the order.

## Model

| member | source | states |
|---|---|---|
| Cards.ColorRaw | Sources/SetGameEngine/Card.swift:25-26 | `rawValue` of `Color`: 0, 1, 2 in declaration order. It has no ensures; `Cards.ColorLessIsStrictTotal` characterises the order built on it. |
| Cards.FillRaw | Sources/SetGameEngine/Card.swift:33-34 | `rawValue` of `Fill`: 0, 1, 2. It has no ensures; see `Cards.FillLessIsStrictTotal`. |
| Cards.ShapeRaw | Sources/SetGameEngine/Card.swift:41-42 | `rawValue` of `Shape`: 0, 1, 2. It has no ensures; see `Cards.ShapeLessIsStrictTotal`. |
| Cards.CountRaw | Sources/SetGameEngine/Card.swift:49-52 | `rawValue` of `Count`: 1, 2, 3. It has no ensures; `Cards.CountRawValues` characterises its range. |
| Cards.ColorLess | Sources/SetGameEngine/Card.swift:28-30 | `Color <` on raw values. It has no ensures; `Cards.ColorLessIsStrictTotal` states its properties. |
| Cards.FillLess | Sources/SetGameEngine/Card.swift:36-38 | `Fill <` on raw values. It has no ensures; see `Cards.FillLessIsStrictTotal`. |
| Cards.ShapeLess | Sources/SetGameEngine/Card.swift:44-46 | `Shape <` on raw values. It has no ensures; see `Cards.ShapeLessIsStrictTotal`. |
| Cards.CountLess | Sources/SetGameEngine/Card.swift:54-56 | `Count <` on raw values. It has no ensures; see `Cards.CountLessIsStrictTotal`. |
| Cards.CardLess | Sources/SetGameEngine/Card.swift:67-83 | `Card <` with the nested tests of the source. It has no ensures; `Cards.CardLessIrreflexive`, `Cards.CardLessTransitive`, `Cards.CardTrichotomy`, `Cards.CountIsPrimaryKey` and `Cards.ShapeIsLeastSignificant` characterise it. |
| Cards.CardEq | Sources/SetGameEngine/Card.swift:88-92 | `Card ==`. It has no ensures; `Cards.CardEqIsStructural` characterises it. |
| Cards.ColorLessIsStrictTotal | Sources/SetGameEngine/Card.swift:28-30 | `Color <` compares raw values. It is irreflexive and transitive, and any two distinct colors are ordered. |
| Cards.FillLessIsStrictTotal | Sources/SetGameEngine/Card.swift:36-38 | The same for `Fill <`. |
| Cards.ShapeLessIsStrictTotal | Sources/SetGameEngine/Card.swift:44-46 | The same for `Shape <`. |
| Cards.CountLessIsStrictTotal | Sources/SetGameEngine/Card.swift:54-56 | The same for `Count <`. |
| Cards.CountRawValues | Sources/SetGameEngine/Card.swift:49-52 | An integer is the raw value of some `Count` case exactly when it is 1, 2 or 3. |
| Cards.CardEqIsStructural | Sources/SetGameEngine/Card.swift:88-92 | `Card ==` holds exactly when the cards are equal in all four fields. It is reflexive, symmetric and transitive. |
| Cards.CardLessIrreflexive | Sources/SetGameEngine/Card.swift:67-83 | No card is less than itself. |
| Cards.CardLessTransitive | Sources/SetGameEngine/Card.swift:67-83 | If a < b and b < c, then a < c. |
| Cards.CardTrichotomy | Sources/SetGameEngine/Card.swift:67-92 | For any two cards exactly one of a < b, a == b, b < a holds. |
| Cards.CountIsPrimaryKey | Sources/SetGameEngine/Card.swift:68-69 | A smaller count makes a card smaller, whatever its other fields are. |
| Cards.ShapeIsLeastSignificant | Sources/SetGameEngine/Card.swift:72-76 | Between cards equal in count, fill and color, `<` is exactly the shape order. |
| CardSort.Insert | Sources/SetGameEngine/Engine.swift:71 | One step of the sort: the result holds the inserted card and the input, and is one longer. `CardSort.InsertKeepsSorted` proves it keeps the order. |
| CardSort.SortCards | Sources/SetGameEngine/Engine.swift:71 | `sorted()` returns a rearrangement of its input (the same multiset). |
| CardSort.InsertKeepsSorted | Sources/SetGameEngine/Engine.swift:71 | Inserting a card into an ascending array keeps it ascending. |
| CardSort.SortCardsIsSorted | Sources/SetGameEngine/Engine.swift:71 | The result of `sorted()` is in ascending card order. |
| CardSort.SortedIsUnique | Sources/SetGameEngine/Engine.swift:71 | Two ascending arrangements of the same cards are equal. |
| CardSort.SortEqualIffSameCards | Sources/SetGameEngine/Engine.swift:71 | Two card arrays have equal sorted forms exactly when they hold the same cards with the same multiplicities. |
| ArrayExtensions.RemoveFirst | Sources/SetGameEngine/Array+Extensions.swift:5-11 | The array that `remove(object:)` leaves. It has no ensures; `ArrayExtensions.RemoveFirstAt`, `ArrayExtensions.RemoveFirstAbsent` and `ArrayExtensions.RemoveFirstMultiset` characterise it. |
| ArrayExtensions.Without | Sources/SetGameEngine/Array+Extensions.swift:13-21 | The array that `remove(objects:)` leaves. It has no ensures; `ArrayExtensions.WithoutMultiset` and `ArrayExtensions.WithoutContained` characterise it. |
| ArrayExtensions.RemovedIndices | Sources/SetGameEngine/Array+Extensions.swift:15-20 | The indices `remove(objects:)` collects. It has no ensures; `ArrayExtensions.RemoveObjects` is proved to return it. |
| ArrayExtensions.FirstIndexUnique | Sources/SetGameEngine/Array+Extensions.swift:6 | An index holding `x` with no `x` before it is the one `firstIndex(of:)` finds. |
| ArrayExtensions.RemoveObject | Sources/SetGameEngine/Array+Extensions.swift:5-11 | If `x` is present, the element at its first index i is removed, i is returned and the other elements keep their order. If `x` is absent, nil is returned and the array is unchanged. |
| ArrayExtensions.RemoveFirstAt | Sources/SetGameEngine/Array+Extensions.swift:5-8 | Removing the first `x` from an array whose first `x` is at i leaves the elements before and after i. |
| ArrayExtensions.RemoveFirstAbsent | Sources/SetGameEngine/Array+Extensions.swift:9-10 | Removing an absent element leaves the array unchanged. |
| ArrayExtensions.RemoveFirstMultiset | Sources/SetGameEngine/Array+Extensions.swift:5-11 | Removing one `x` takes one `x` out of the multiset of elements. The array shrinks by one exactly when `x` was present. |
| ArrayExtensions.RemoveObjects | Sources/SetGameEngine/Array+Extensions.swift:13-21 | The result is the array with each object removed in turn, and it has `multiset(original) - multiset(objects)`. The indices returned are `RemovedIndices`: for each object found, its first index in the array as it stood then. The array shrinks by exactly the number of indices returned. |
| ArrayExtensions.WithoutMultiset | Sources/SetGameEngine/Array+Extensions.swift:13-21 | Removing each of `objects` in turn subtracts their multiset from the array's. |
| ArrayExtensions.WithoutContained | Sources/SetGameEngine/Array+Extensions.swift:13-21 | When every object is present (with multiplicity), the array shrinks by their number, and the removed objects with what is left make up the original. |
| ArrayExtensions.RemoveWhere | Sources/SetGameEngine/Array+Extensions.swift:23-31 | Returns true exactly when some element matches. Then the first matching element is removed and the others keep their order. Otherwise the array is unchanged. |
| ArrayExtensions.IndexOf | Sources/SetGameEngine/Array+Extensions.swift:6 | `firstIndex(of:)`: the index holds `x` and no earlier element is `x`. |
| ArrayExtensions.UniqueElements | Sources/SetGameEngine/Array+Extensions.swift:37-45 | The fold of `uniqueElements`. It has no ensures; `ArrayExtensions.UniqueElementsSpec` characterises it. |
| ArrayExtensions.UniqueElementsSpec | Sources/SetGameEngine/Array+Extensions.swift:37-45 | `uniqueElements` holds exactly the elements of the input, each once, in the order of their first occurrence. |
| ArrayExtensions.ElementAt | Sources/SetGameEngine/Array+Extensions.swift:51-53 | `subscript(optional:)` returns an element exactly when the index is in bounds, and then the element at that index. |
| Combinatorics.Combinations | Sources/SetGameEngine/Engine.swift:138-162 | `combinations(source:takenBy:)` with the tests in the source's order. It has no ensures; the `Combinatorics` lemmas below characterise it. |
| Combinatorics.PrependAll | Sources/SetGameEngine/Engine.swift:159 | `subCombos.map { [source[0]] + $0 }`: same length, and each element gets the head in front. |
| Combinatorics.CombinationsHaveLength | Sources/SetGameEngine/Engine.swift:138-162 | Every combination has exactly `takenBy` elements. |
| Combinatorics.CombinationsAreSubsequences | Sources/SetGameEngine/Engine.swift:138-162 | Every combination is an order-preserving subsequence of the source. |
| Combinatorics.CombinationsAreComplete | Sources/SetGameEngine/Engine.swift:138-162 | For `takenBy` ≥ 1, every order-preserving subsequence of that length is among the combinations. |
| Combinatorics.CombinationsCount | Sources/SetGameEngine/Engine.swift:138-162 | For `takenBy` = k ≥ 1 there are C(\|source\|, k) combinations. |
| Combinatorics.CombinationsTooMany | Sources/SetGameEngine/Engine.swift:138-162 | Asking for more elements than the source has gives no combination. |
| Combinatorics.CombinationsOfZero | Sources/SetGameEngine/Engine.swift:139-149 | Taking 0 gives `[[]]` for the empty source and `[]` for any other source. |
| Combinatorics.CombinationsOfAll | Sources/SetGameEngine/Engine.swift:139-141 | Taking all elements gives exactly `[source]`. |
| Combinatorics.CombinationsOfOne | Sources/SetGameEngine/Engine.swift:151-153 | Taking 1 gives the singletons in source order. |
| SetRules.SameOrAllDifferent | Sources/SetGameEngine/Engine.swift:118-136 | The expression of each `setOf*` helper. It has no ensures; `SetRules.SameOrAllDifferentByMultiplicity` characterises it. |
| SetRules.Fills | Sources/SetGameEngine/Engine.swift:112 | The fill column of the cards: one value per card. |
| SetRules.Shapes | Sources/SetGameEngine/Engine.swift:113 | The shape column of the cards: one value per card. |
| SetRules.Colors | Sources/SetGameEngine/Engine.swift:114 | The color column of the cards: one value per card. |
| SetRules.Counts | Sources/SetGameEngine/Engine.swift:115 | The count column of the cards: one value per card. |
| SetRules.IsSet | Sources/SetGameEngine/Engine.swift:106-116 | `isSet(of:)`. It has no ensures; `SetRules.IsSetByMultiplicity`, `SetRules.IsSetPermutationInvariant` and `SetRules.IsSetExamples` characterise it. |
| SetRules.SameOrAllDifferentByMultiplicity | Sources/SetGameEngine/Engine.swift:118-136 | A `setOf*` test passes exactly when no value occurs exactly twice among the three. |
| SetRules.IsSetByMultiplicity | Sources/SetGameEngine/Engine.swift:106-136 | `isSet` holds exactly when there are three cards and, in each of fill, shape, color and count, no value occurs exactly twice. |
| SetRules.IsSetPermutationInvariant | Sources/SetGameEngine/Engine.swift:106-116 | Reordering the cards does not change `isSet`. |
| SetRules.IsSetExamples | Sources/SetGameEngine/Engine.swift:106-116 | Three worked cases: colors all different is a set, fills all different is a set, and two equal counts with one different is not. |
| Deck.DeckCard | Sources/SetGameEngine/Engine.swift:20-26 | The card appended in a given round of the loops. It has no ensures; `Deck.DeckCardAt`, `Deck.DeckCardIndex` and `Deck.IndexDeckCard` characterise it. |
| Deck.FullDeck | Sources/SetGameEngine/Engine.swift:18-29 | The cards `init` collects. It has no ensures; `Deck.FullDeckSpec` characterises it. |
| Deck.DeckCardAt | Sources/SetGameEngine/Engine.swift:20-26 | Round 27·s + 9·c + 3·f + n of the four nested loops appends the card with the s-th shape, c-th color, f-th fill and n-th count. |
| Deck.DeckCardIndex | Sources/SetGameEngine/Engine.swift:20-26 | Every card the loops append has a count from 1 to 3, and it determines its own round. |
| Deck.IndexDeckCard | Sources/SetGameEngine/Engine.swift:20-26 | Every card with a count from 1 to 3 is appended in some round. |
| Deck.FullDeckSpec | Sources/SetGameEngine/Engine.swift:18-29 | The deck has 81 pairwise-distinct cards. It holds exactly the cards whose count is 1, 2 or 3. |
| Deck.PartitionOfDeck | Sources/SetGameEngine/Engine.swift:12-13 | If stock, table and out-of-play cards make up the deck, neither stock nor table repeats a card, no card is in both, and the three number 81 together. |
| GameEngine.Excluded | Sources/SetGameEngine/Engine.swift:70-71 | The exclusion test of `findSet`. It has no ensures; `GameEngine.ExcludedIffSameCards` characterises it. |
| GameEngine.Acceptable | Sources/SetGameEngine/Engine.swift:69-77 | A combination the loop returns when it meets it: a set that is not excluded. It has no ensures; it is used by `GameEngine.FirstSetFound` and `GameEngine.FirstSetNone`. |
| GameEngine.FirstSet | Sources/SetGameEngine/Engine.swift:68-80 | The result of the `findSet` loop. It has no ensures; `GameEngine.FirstSetFound`, `GameEngine.FirstSetNone` and `GameEngine.FirstSetMember` characterise it. |
| GameEngine.FirstSetFound | Sources/SetGameEngine/Engine.swift:68-79 | The combination the loop returns is one it may return, and every combination before it is not a set or is excluded. |
| GameEngine.FirstSetNone | Sources/SetGameEngine/Engine.swift:68-80 | The loop returns nil exactly when no combination is a set that is not excluded. |
| GameEngine.FirstSetMember | Sources/SetGameEngine/Engine.swift:68-79 | The combination returned is one of the combinations, is a set, and is not excluded. |
| GameEngine.ExcludedIffSameCards | Sources/SetGameEngine/Engine.swift:70-71 | The `except!.sorted() == setOfCards.sorted()` test holds exactly when the two hold the same cards. |
| GameEngine.FindSet | Sources/SetGameEngine/Engine.swift:65-81 | The result is the first acceptable combination in shuffled order. A returned triple is a set of three of the given cards, in their order. It differs from `except` when one is given and there is more than one combination. nil comes back exactly when no combination is a set, or there is more than one combination and every set holds the same cards as `except` (so always when fewer than 3 cards are given). |
| GameEngine.FindSetSome | Sources/SetGameEngine/Engine.swift:65-79 | Whatever the shuffle, a returned triple is a set of three of the given cards, and it is not the excluded set when the exclusion applies. |
| GameEngine.FindSetNone | Sources/SetGameEngine/Engine.swift:65-80 | Whatever the shuffle, nil comes back exactly when no combination is a set, or there is more than one combination and every set holds the same cards as `except`. |
| GameEngine.FindSetTooFewCards | Sources/SetGameEngine/Engine.swift:65-80 | With fewer than 3 cards, `findSet` returns nil. |
| GameEngine.SetsAmong | Sources/SetGameEngine/Engine.swift:86-90 | The result of the `findAllSets` loop. It has no ensures; `GameEngine.SetsAmongMultiplicity` and `GameEngine.SetsAmongPermutation` characterise it. |
| GameEngine.SetsAmongMultiplicity | Sources/SetGameEngine/Engine.swift:86-90 | The filter keeps every set as often as it occurs among the combinations, and nothing else. |
| GameEngine.SetsAmongPermutation | Sources/SetGameEngine/Engine.swift:85-90 | Reordering the combinations only reorders the sets found. |
| GameEngine.FirstSetNoneIffNoSets | Sources/SetGameEngine/Engine.swift:65-93 | Without an exclusion, `findSet` returns nil exactly when `findAllSets` finds nothing. |
| GameEngine.FindAllSets | Sources/SetGameEngine/Engine.swift:83-93 | The result is the sets among the combinations in shuffled order. It holds the same sets, with the same multiplicities, for every shuffle. Each is a set of three of the given cards in their order. |
| GameEngine.FindAllSetsResult | Sources/SetGameEngine/Engine.swift:83-93 | Whatever the shuffle, the sets found are the same multiset, and each is a set of three of the given cards. |
| GameEngine.FindAllSetsComplete | Sources/SetGameEngine/Engine.swift:83-93 | Every set of three of the given cards, taken in their order, is found whatever the shuffle. |
| GameEngine.TakeFromShuffled | Sources/SetGameEngine/Engine.swift:44-45 | Taking the first n cards of a shuffled stock out of the stock leaves n fewer cards, and the taken cards with the rest make up the stock. |
| GameEngine.Engine.constructor | Sources/SetGameEngine/Engine.swift:16-32 | After `init`, the stock is the 81-card deck in loop order, the table is empty and the invariant holds. |
| GameEngine.Engine.FillTable | Sources/SetGameEngine/Engine.swift:42-57 | Fills the table up to the bound with the first cards of the shuffled stock and removes them from the stock. Stock plus table is conserved. It does nothing when the table is already at the bound. |
| GameEngine.Engine.Draw | Sources/SetGameEngine/Engine.swift:42-49 | With 12 or more cards on the table, returns the table and changes nothing. Otherwise moves exactly 12 − \|table\| cards from stock to table and returns them. The table then has 12 cards and stock plus table is conserved. |
| GameEngine.Engine.AddCards | Sources/SetGameEngine/Engine.swift:51-58 | The same with bound 15, returning the whole resulting table. |
| GameEngine.Engine.SetFound | Sources/SetGameEngine/Engine.swift:60-63 | Removes one occurrence of each given card from the table (multiset difference), without checking `isSet`, and returns the table. The stock is unchanged and the removed cards leave the game. |
| GameEngine.Engine.RemoveFromTable | Sources/SetGameEngine/Engine.swift:95-97 | The same removal from the table, without a result. |
| GameEngine.Engine.GetCardsFromStock | Sources/SetGameEngine/Engine.swift:99-104 | For count ≤ 0, returns nothing and changes nothing. Otherwise removes the first `count` cards of the shuffled stock from the stock one by one and returns them. The table is unchanged. |
| GameEngine.ValidEngineCards | Sources/SetGameEngine/Engine.swift:12-13 | While the invariant holds, stock and table have no repeated card and share none, and stock, table and out-of-play cards number 81. |

## Left out

- Randomness: `shuffled()` (Engine.swift lines 44, 53, 66, 85 and 101) is a parameter that may be any reordering. No random number generator is modelled.
- `print("existing set\n")` in `findSet` is console output and has no model.
- `description` and `debugDescription` of `Card` are string rendering only.
- The `players` field and the `players:` argument of `init` are stored and never read, so they have no model.
- `pileOfCards` and `playingCards` only return `cardStock` and `cardsOnTable`. The model reads those fields directly.
- `Player.swift` declares a protocol with no code. Scoring has no code in `Engine.swift` and is not part of this model.
- Combinatorics.Combinations: Swift's 64-bit `Int` is modelled as an unbounded `int`. For a non-empty source and a `takenBy` within `|source| - 1` of `Int.min`, the recursive call's `takenBy - 1` overflows and traps in Swift, while the model returns `[]`. The engine only ever passes 3, so it never reaches that trap.
- GameEngine.Engine.Draw: a stock with fewer than `12 - |table|` cards is excluded by a precondition, because `prefix(through:)` traps there. The same holds for `AddCards` with 15 and for `GetCardsFromStock` with `count`.
- GameEngine.FindSet: the `return` inside the loop is modelled as leaving the loop and returning afterwards, which gives the same result.
- GameEngine.Engine.GetCardsFromStock: the `forEach` removes from the field on every step. The model removes from a local copy and assigns the field once at the end, which gives the same final state.
- Mutation in place: the array helpers return the new array instead of changing it in place. The engine's fields hold `seq` values, so there is no aliasing to model.

=== FILE: array_extensions.dfy ===
/**
 * The by-value array helpers. A Swift array is a value, so a `mutating`
 * method is modelled as a method that takes the array and returns its new
 * value together with the method's own result.
 */
module ArrayExtensions {
  import opened Wrappers

  /** The array after removing the first element equal to `x`, if any. */
  function RemoveFirst<T(==)>(a: seq<T>, x: T): (r: seq<T>)
  {
    if a == [] then []
    else if a[0] == x then a[1..]
    else [a[0]] + RemoveFirst(a[1..], x)
  }

  /** The array after removing, in order, one occurrence of each of `objects`. */
  function Without<T(==)>(a: seq<T>, objects: seq<T>): (r: seq<T>)
  {
    if objects == [] then a
    else RemoveFirst(Without(a, objects[..|objects| - 1]), objects[|objects| - 1])
  }

  /**
   * The indices `remove(objects:)` reports: for each object in turn, the
   * index at which it was found in the array as it stood at that moment;
   * objects not found add no index.
   */
  function RemovedIndices<T(==)>(a: seq<T>, objects: seq<T>): seq<nat>
  {
    if objects == [] then []
    else
      var n := |objects| - 1;
      var before := Without(a, objects[..n]);
      RemovedIndices(a, objects[..n]) + if objects[n] in before then [IndexOf(before, objects[n])] else []
  }

  lemma {:induction false} RemoveFirstAt<T>(a: seq<T>, x: T, i: nat)
    requires i < |a| && a[i] == x && x !in a[..i]
    ensures RemoveFirst(a, x) == a[..i] + a[i + 1..]
  {
    if i > 0 {
      assert a[1..][..i - 1] == a[1..i];
      assert x !in a[1..][..i - 1];
      RemoveFirstAt(a[1..], x, i - 1);
    }
  }

  lemma {:induction false} RemoveFirstAbsent<T>(a: seq<T>, x: T)
    requires x !in a
    ensures RemoveFirst(a, x) == a
  {
    if a != [] {
      RemoveFirstAbsent(a[1..], x);
    }
  }

  /** Removing one `x` takes one `x` out of the multiset of elements, if there was one. */
  lemma {:induction false} RemoveFirstMultiset<T>(a: seq<T>, x: T)
    ensures multiset(RemoveFirst(a, x)) == multiset(a) - multiset{x}
    ensures |RemoveFirst(a, x)| == if x in a then |a| - 1 else |a|
  {
    if a != [] {
      RemoveFirstMultiset(a[1..], x);
      assert a == [a[0]] + a[1..];
    }
  }

  /** `remove(objects:)` subtracts the multiset of `objects` from the array. */
  lemma {:induction false} WithoutMultiset<T>(a: seq<T>, objects: seq<T>)
    ensures multiset(Without(a, objects)) == multiset(a) - multiset(objects)
  {
    if objects != [] {
      var n := |objects| - 1;
      WithoutMultiset(a, objects[..n]);
      RemoveFirstMultiset(Without(a, objects[..n]), objects[n]);
      assert objects == objects[..n] + [objects[n]];
    }
  }

  /**
   * Removing objects the array holds (counted with multiplicity) shortens
   * it by their number, and adding them back gives the original multiset.
   */
  lemma WithoutContained<T>(a: seq<T>, objects: seq<T>)
    requires multiset(objects) <= multiset(a)
    ensures multiset(Without(a, objects)) + multiset(objects) == multiset(a)
    ensures |Without(a, objects)| == |a| - |objects|
  {
    WithoutMultiset(a, objects);
    assert multiset(Without(a, objects)) + multiset(objects) == multiset(a);
  }

  /** `remove(object:)`: drop the first element equal to `x` and report its index. */
  method RemoveObject<T(==)>(a: seq<T>, x: T) returns (b: seq<T>, index: Option<nat>)
    ensures index.Some? ==>
      && index.value < |a| && a[index.value] == x
      && x !in a[..index.value]
      && b == a[..index.value] + a[index.value + 1..]
    ensures index.None? <==> x !in a
    ensures index.None? ==> b == a
    ensures index.Some? ==> x in a && index.value == IndexOf(a, x)
    ensures b == RemoveFirst(a, x)
  {
    var i := 0;
    while i < |a| && a[i] != x
      invariant 0 <= i <= |a|
      invariant x !in a[..i]
    {
      i := i + 1;
    }
    if i < |a| {
      b := a[..i] + a[i + 1..];
      index := Some(i);
      RemoveFirstAt(a, x, i);
      FirstIndexUnique(a, x, i);
    } else {
      assert a[..i] == a;
      b := a;
      index := None;
      RemoveFirstAbsent(a, x);
    }
  }

  /** `remove(objects:)`: remove each object in turn, collecting the indices that were found. */
  method RemoveObjects<T(==)>(a: seq<T>, objects: seq<T>) returns (b: seq<T>, removedIndices: seq<nat>)
    ensures b == Without(a, objects)
    ensures removedIndices == RemovedIndices(a, objects)
    ensures multiset(b) == multiset(a) - multiset(objects)
    ensures |b| == |a| - |removedIndices|
  {
    b := a;
    removedIndices := [];
    for k := 0 to |objects|
      invariant b == Without(a, objects[..k])
      invariant removedIndices == RemovedIndices(a, objects[..k])
      invariant |b| == |a| - |removedIndices|
    {
      var index;
      b, index := RemoveObject(b, objects[k]);
      if index.Some? {
        removedIndices := removedIndices + [index.value];
      }
      assert objects[..k + 1][..k] == objects[..k];
    }
    assert objects[..|objects|] == objects;
    WithoutMultiset(a, objects);
  }

  /** `remove(where:)`: drop the first element satisfying `matches`. */
  method RemoveWhere<T>(a: seq<T>, matches: T -> bool) returns (b: seq<T>, removed: bool)
    ensures removed <==> exists i | 0 <= i < |a| :: matches(a[i])
    ensures removed ==> exists i | 0 <= i < |a| ::
      && matches(a[i])
      && (forall j | 0 <= j < i :: !matches(a[j]))
      && b == a[..i] + a[i + 1..]
    ensures !removed ==> b == a
  {
    var i := 0;
    while i < |a| && !matches(a[i])
      invariant 0 <= i <= |a|
      invariant forall j | 0 <= j < i :: !matches(a[j])
    {
      i := i + 1;
    }
    if i < |a| {
      b := a[..i] + a[i + 1..];
      removed := true;
    } else {
      b := a;
      removed := false;
    }
  }

  /** `uniqueElements`: the fold that appends each element not seen before. */
  function UniqueElements<T(==)>(s: seq<T>): (r: seq<T>)
  {
    if s == [] then []
    else
      var u := UniqueElements(s[..|s| - 1]);
      if s[|s| - 1] in u then u else u + [s[|s| - 1]]
  }

  /** The index of the first occurrence of `x` in `s`. */
  function IndexOf<T(==)>(s: seq<T>, x: T): (i: nat)
    requires x in s
    ensures i < |s| && s[i] == x && x !in s[..i]
  {
    if s[0] == x then 0
    else
      assert s[1..][..IndexOf(s[1..], x)] == s[1..IndexOf(s[1..], x) + 1];
      1 + IndexOf(s[1..], x)
  }

  /** The first index of `x` is the only index holding `x` with no `x` before it. */
  lemma FirstIndexUnique<T>(s: seq<T>, x: T, i: nat)
    requires i < |s| && s[i] == x && x !in s[..i]
    ensures IndexOf(s, x) == i
  {
  }

  lemma IndexOfInPrefix<T>(s: seq<T>, n: nat, x: T)
    requires n <= |s| && x in s[..n]
    ensures x in s && IndexOf(s, x) == IndexOf(s[..n], x)
  {
    var j := IndexOf(s[..n], x);
    assert s[..n][..j] == s[..j];
  }

  /**
   * `u` holds exactly the elements of `s`, each once, in the order of their
   * first occurrence in `s`.
   */
  ghost predicate FirstOccurrences<T>(u: seq<T>, s: seq<T>)
  {
    && (forall i | 0 <= i < |u| :: u[i] in s)
    && (forall i | 0 <= i < |s| :: s[i] in u)
    && (forall i, j | 0 <= i < j < |u| :: u[i] != u[j])
    && (forall i, j | 0 <= i < j < |u| :: u[i] in s && u[j] in s && IndexOf(s, u[i]) < IndexOf(s, u[j]))
  }

  lemma IndexOfAfterAppend<T>(p: seq<T>, x: T, y: T)
    requires y in p
    ensures y in p + [x] && IndexOf(p + [x], y) == IndexOf(p, y)
  {
    assert (p + [x])[..|p|] == p;
    IndexOfInPrefix(p + [x], |p|, y);
  }

  lemma FirstOccurrencesMembers<T>(u: seq<T>, p: seq<T>, x: T)
    requires forall i | 0 <= i < |u| :: u[i] in p
    requires forall i | 0 <= i < |p| :: p[i] in u
    ensures var r, s := (if x in u then u else u + [x]), p + [x];
      && (forall i | 0 <= i < |r| :: r[i] in s)
      && (forall i | 0 <= i < |s| :: s[i] in r)
  {
    var r, s := (if x in u then u else u + [x]), p + [x];
    forall i | 0 <= i < |s| ensures s[i] in r {
      if i < |p| {
        assert s[i] == p[i];
      }
    }
    forall i | 0 <= i < |r| ensures r[i] in s {
      if i < |u| {
        assert r[i] == u[i];
      }
    }
  }

  lemma FirstOccurrencesOrder<T>(u: seq<T>, p: seq<T>, x: T)
    requires FirstOccurrences(u, p)
    ensures var r, s := (if x in u then u else u + [x]), p + [x];
      && (forall i, j | 0 <= i < j < |r| :: r[i] != r[j])
      && (forall i, j | 0 <= i < j < |r| :: r[i] in s && r[j] in s && IndexOf(s, r[i]) < IndexOf(s, r[j]))
  {
    var r, s := (if x in u then u else u + [x]), p + [x];
    forall i | 0 <= i < |u| ensures u[i] in s && IndexOf(s, u[i]) == IndexOf(p, u[i]) {
      IndexOfAfterAppend(p, x, u[i]);
    }
    if x !in u {
      assert x !in p;
      assert x !in s[..|p|] by { assert s[..|p|] == p; }
      assert IndexOf(s, x) == |p|;
      forall i, j | 0 <= i < j < |r|
        ensures r[i] != r[j]
        ensures r[i] in s && r[j] in s && IndexOf(s, r[i]) < IndexOf(s, r[j])
      {
        assert r[i] == u[i];
        if j < |u| {
          assert r[j] == u[j];
        }
      }
    }
  }

  lemma FirstOccurrencesAppend<T>(u: seq<T>, p: seq<T>, x: T)
    requires FirstOccurrences(u, p)
    ensures FirstOccurrences(if x in u then u else u + [x], p + [x])
  {
    FirstOccurrencesMembers(u, p, x);
    FirstOccurrencesOrder(u, p, x);
  }

  lemma UniqueElementsSnoc<T>(p: seq<T>, x: T)
    requires FirstOccurrences(UniqueElements(p), p)
    ensures FirstOccurrences(UniqueElements(p + [x]), p + [x])
  {
    assert (p + [x])[..|p|] == p;
    FirstOccurrencesAppend(UniqueElements(p), p, x);
  }

  /**
   * `uniqueElements` keeps exactly the elements of the input, each once,
   * in the order of their first occurrence.
   */
  lemma {:induction false} UniqueElementsSpec<T>(s: seq<T>)
    ensures FirstOccurrences(UniqueElements(s), s)
  {
    if s != [] {
      var p := s[..|s| - 1];
      UniqueElementsSpec(p);
      var x := s[|s| - 1];
      UniqueElementsSnoc(p, x);
      assert s == p + [x];
    }
  }

  /** `subscript(optional:)`: the element at `i` when `i` is an index, nil otherwise. */
  function ElementAt<T>(s: seq<T>, i: int): (r: Option<T>)
    ensures r.Some? <==> 0 <= i < |s|
    ensures r.Some? ==> r.value == s[i]
  {
    if 0 <= i < |s| then Some(s[i]) else None
  }
}

=== FILE: card_sort.dfy ===
/**
 * Swift's `sorted()` on an array of cards, as used by the set search to
 * compare two triples. Any correct sort gives the same result because the
 * card order is a strict total order whose equivalence is equality; the
 * model sorts by insertion.
 */
module CardSort {
  import opened Cards

  /** No later element is smaller than an earlier one. */
  ghost predicate SortedCards(s: seq<Card>)
  {
    forall i, j | 0 <= i < j < |s| :: !CardLess(s[j], s[i])
  }

  function Insert(x: Card, s: seq<Card>): (r: seq<Card>)
    ensures multiset(r) == multiset(s) + multiset{x}
    ensures |r| == |s| + 1
  {
    if s == [] || !CardLess(s[0], x) then [x] + s
    else
      assert s == [s[0]] + s[1..];
      [s[0]] + Insert(x, s[1..])
  }

  function SortCards(s: seq<Card>): (r: seq<Card>)
    ensures multiset(r) == multiset(s)
  {
    if s == [] then []
    else
      assert s == [s[0]] + s[1..];
      Insert(s[0], SortCards(s[1..]))
  }

  lemma {:induction false} InsertKeepsSorted(x: Card, s: seq<Card>)
    requires SortedCards(s)
    ensures SortedCards(Insert(x, s))
  {
    if s == [] || !CardLess(s[0], x) {
      var r := [x] + s;
      forall i, j | 0 <= i < j < |r| ensures !CardLess(r[j], r[i]) {
        if i == 0 {
          if CardLess(r[j], x) {
            CardLessTransitive(s[0], r[j], x);
          }
        }
      }
    } else {
      InsertKeepsSorted(x, s[1..]);
      var t := Insert(x, s[1..]);
      var r := [s[0]] + t;
      forall k | 0 <= k < |t| ensures !CardLess(t[k], s[0]) {
        assert t[k] in multiset(t);
        if t[k] == x {
          CardTrichotomy(s[0], x);
        } else {
          assert t[k] in multiset(s[1..]);
          var m :| 0 <= m < |s[1..]| && s[1..][m] == t[k];
          assert s[m + 1] == t[k];
        }
      }
      forall i, j | 0 <= i < j < |r| ensures !CardLess(r[j], r[i]) {
        if i == 0 {
          assert r[j] == t[j - 1];
        } else {
          assert r[i] == t[i - 1] && r[j] == t[j - 1];
        }
      }
    }
  }

  lemma {:induction false} SortCardsIsSorted(s: seq<Card>)
    ensures SortedCards(SortCards(s))
  {
    if s != [] {
      SortCardsIsSorted(s[1..]);
      InsertKeepsSorted(s[0], SortCards(s[1..]));
    }
  }

  /** The first card of a sorted sequence is not above any of its cards. */
  lemma SortedHeadIsLeast(a: seq<Card>, x: Card)
    requires SortedCards(a) && x in multiset(a)
    ensures a != [] && !CardLess(x, a[0])
  {
    var i :| 0 <= i < |a| && a[i] == x;
    if i == 0 {
      CardLessIrreflexive(x);
    }
  }

  /** Two sorted sequences holding the same cards start with the same card. */
  lemma SortedHeadsEqual(a: seq<Card>, b: seq<Card>)
    requires SortedCards(a) && SortedCards(b)
    requires multiset(a) == multiset(b) && a != []
    ensures b != [] && a[0] == b[0]
  {
    assert a[0] in multiset(a);
    SortedHeadIsLeast(b, a[0]);
    SortedHeadIsLeast(a, b[0]);
    CardTrichotomy(a[0], b[0]);
    CardEqIsStructural(a[0], b[0], b[0]);
  }

  lemma SortedTail(a: seq<Card>)
    requires SortedCards(a) && a != []
    ensures SortedCards(a[1..])
    ensures multiset(a[1..]) == multiset(a) - multiset{a[0]}
  {
    assert a == [a[0]] + a[1..];
  }

  /** Two sorted sequences holding the same cards are equal. */
  lemma {:induction false} SortedIsUnique(a: seq<Card>, b: seq<Card>)
    requires SortedCards(a) && SortedCards(b)
    requires multiset(a) == multiset(b)
    ensures a == b
  {
    if a != [] {
      SortedHeadsEqual(a, b);
      SortedTail(a);
      SortedTail(b);
      SortedIsUnique(a[1..], b[1..]);
      assert a == [a[0]] + a[1..] && b == [b[0]] + b[1..];
    } else {
      assert |multiset(b)| == 0;
    }
  }

  /**
   * Comparing the sorted forms of two card arrays, as the set search does,
   * is comparing the two as multisets of cards.
   */
  lemma SortEqualIffSameCards(a: seq<Card>, b: seq<Card>)
    ensures SortCards(a) == SortCards(b) <==> multiset(a) == multiset(b)
  {
    if multiset(a) == multiset(b) {
      SortCardsIsSorted(a);
      SortCardsIsSorted(b);
      SortedIsUnique(SortCards(a), SortCards(b));
    }
  }
}

=== FILE: cards.dfy ===
/**
 * A card of the game "Set": four attributes with three values each.
 * The enums compare by their raw values; cards compare lexicographically
 * by count, then fill, then color, then shape.
 */
module Cards {

  datatype Color = Red | Green | Blue
  datatype Fill = Empty | Hatch | Solid
  datatype Shape = Capsule | Eyebrow | Rhombus
  /** The Count enum; only its raw value is stored in a card. */
  datatype Count = One | Two | Three

  /** A card never changes once built, so it is a value. */
  datatype Card = Card(color: Color, fill: Fill, shape: Shape, count: int)

  // Raw values, in declaration order (Count starts at 1).

  function ColorRaw(c: Color): int
  {
    match c
    case Red => 0
    case Green => 1
    case Blue => 2
  }

  function FillRaw(f: Fill): int
  {
    match f
    case Empty => 0
    case Hatch => 1
    case Solid => 2
  }

  function ShapeRaw(s: Shape): int
  {
    match s
    case Capsule => 0
    case Eyebrow => 1
    case Rhombus => 2
  }

  function CountRaw(n: Count): int
  {
    match n
    case One => 1
    case Two => 2
    case Three => 3
  }

  // The `<` operator of each enum.

  predicate ColorLess(a: Color, b: Color) { ColorRaw(a) < ColorRaw(b) }

  predicate FillLess(a: Fill, b: Fill) { FillRaw(a) < FillRaw(b) }

  predicate ShapeLess(a: Shape, b: Shape) { ShapeRaw(a) < ShapeRaw(b) }

  predicate CountLess(a: Count, b: Count) { CountRaw(a) < CountRaw(b) }

  /** `Card <`, with the nested tests of the source. */
  predicate CardLess(lhs: Card, rhs: Card)
  {
    if lhs.count < rhs.count then true
    else if lhs.count == rhs.count then
      if FillLess(lhs.fill, rhs.fill) then true
      else if lhs.fill == rhs.fill then
        if ColorLess(lhs.color, rhs.color) then true
        else if lhs.color == rhs.color then ShapeLess(lhs.shape, rhs.shape)
        else false
      else false
    else false
  }

  /** `Card ==`: all four fields agree. */
  predicate CardEq(lhs: Card, rhs: Card)
  {
    lhs.color == rhs.color && lhs.count == rhs.count && lhs.fill == rhs.fill && lhs.shape == rhs.shape
  }

  // Each enum order is a strict total order on its three cases.

  lemma ColorLessIsStrictTotal(a: Color, b: Color, c: Color)
    ensures !ColorLess(a, a)
    ensures ColorLess(a, b) && ColorLess(b, c) ==> ColorLess(a, c)
    ensures a != b <==> ColorLess(a, b) || ColorLess(b, a)
  {
  }

  lemma FillLessIsStrictTotal(a: Fill, b: Fill, c: Fill)
    ensures !FillLess(a, a)
    ensures FillLess(a, b) && FillLess(b, c) ==> FillLess(a, c)
    ensures a != b <==> FillLess(a, b) || FillLess(b, a)
  {
  }

  lemma ShapeLessIsStrictTotal(a: Shape, b: Shape, c: Shape)
    ensures !ShapeLess(a, a)
    ensures ShapeLess(a, b) && ShapeLess(b, c) ==> ShapeLess(a, c)
    ensures a != b <==> ShapeLess(a, b) || ShapeLess(b, a)
  {
  }

  lemma CountLessIsStrictTotal(a: Count, b: Count, c: Count)
    ensures !CountLess(a, a)
    ensures CountLess(a, b) && CountLess(b, c) ==> CountLess(a, c)
    ensures a != b <==> CountLess(a, b) || CountLess(b, a)
  {
  }

  /** The raw values of Count are exactly 1, 2 and 3. */
  lemma CountRawValues(n: int)
    ensures (exists c: Count :: CountRaw(c) == n) <==> 1 <= n <= 3
  {
    if n == 1 {
      assert CountRaw(One) == n;
    } else if n == 2 {
      assert CountRaw(Two) == n;
    } else if n == 3 {
      assert CountRaw(Three) == n;
    }
  }

  /** `Card ==` is structural equality, hence an equivalence. */
  lemma CardEqIsStructural(a: Card, b: Card, c: Card)
    ensures CardEq(a, b) <==> a == b
    ensures CardEq(a, a)
    ensures CardEq(a, b) ==> CardEq(b, a)
    ensures CardEq(a, b) && CardEq(b, c) ==> CardEq(a, c)
  {
  }

  lemma CardLessIrreflexive(a: Card)
    ensures !CardLess(a, a)
  {
  }

  lemma CardLessTransitive(a: Card, b: Card, c: Card)
    requires CardLess(a, b) && CardLess(b, c)
    ensures CardLess(a, c)
  {
  }

  /** Exactly one of `a < b`, `a == b`, `b < a` holds. */
  lemma CardTrichotomy(a: Card, b: Card)
    ensures CardLess(a, b) || CardEq(a, b) || CardLess(b, a)
    ensures !(CardLess(a, b) && CardEq(a, b))
    ensures !(CardLess(b, a) && CardEq(a, b))
    ensures !(CardLess(a, b) && CardLess(b, a))
  {
  }

  /** Count is the primary key of the card order. */
  lemma CountIsPrimaryKey(a: Card, b: Card)
    requires a.count < b.count
    ensures CardLess(a, b) && !CardLess(b, a)
  {
  }

  /** Shape is the least significant key: it decides only between cards equal in every other field. */
  lemma ShapeIsLeastSignificant(a: Card, b: Card)
    requires a.count == b.count && a.fill == b.fill && a.color == b.color
    ensures CardLess(a, b) <==> ShapeLess(a.shape, b.shape)
  {
  }
}

=== FILE: combinations.dfy ===
/**
 * The generic k-combination generator: head/tail recursion on the source,
 * either taking the head (and k - 1 from the tail) or skipping it.
 */
module Combinatorics {

  /** `c` can be obtained from `s` by deleting elements, keeping the order. */
  ghost predicate IsSubsequence<T>(c: seq<T>, s: seq<T>)
    decreases |s|
  {
    if c == [] then true
    else if s == [] then false
    else (c[0] == s[0] && IsSubsequence(c[1..], s[1..])) || IsSubsequence(c, s[1..])
  }

  /** The number of ways to choose k of n. */
  ghost function Binomial(n: nat, k: nat): nat
  {
    if k == 0 then 1
    else if n == 0 then 0
    else Binomial(n - 1, k - 1) + Binomial(n - 1, k)
  }

  /** Each of `tails`, with `head` in front. */
  function PrependAll<T>(head: T, tails: seq<seq<T>>): (r: seq<seq<T>>)
    ensures |r| == |tails|
    ensures forall i | 0 <= i < |tails| :: r[i] == [head] + tails[i]
  {
    seq(|tails|, i requires 0 <= i < |tails| => [head] + tails[i])
  }

  /**
   * `combinations(source:takenBy:)`. The test for a source of exactly
   * `takenBy` elements comes first, so `Combinations([], 0)` is `[[]]`
   * while a non-empty source taken by 0 gives no combination at all.
   */
  function Combinations<T>(source: seq<T>, takenBy: int): (r: seq<seq<T>>)
    decreases |source|
  {
    if |source| == takenBy then [source]
    else if |source| == 0 then []
    else if takenBy == 0 then []
    else if takenBy == 1 then seq(|source|, i requires 0 <= i < |source| => [source[i]])
    else
      var rest := source[1..];
      PrependAll(source[0], Combinations(rest, takenBy - 1)) + Combinations(rest, takenBy)
  }

  /** Every combination has exactly `takenBy` elements (so, over unbounded `int`, a negative `takenBy` gives none). */
  lemma {:induction false} CombinationsHaveLength<T>(source: seq<T>, takenBy: int)
    ensures forall c | c in Combinations(source, takenBy) :: |c| == takenBy
    decreases |source|
  {
    if |source| != takenBy && |source| != 0 && takenBy != 0 && takenBy != 1 {
      var rest := source[1..];
      CombinationsHaveLength(rest, takenBy - 1);
      CombinationsHaveLength(rest, takenBy);
      var tails := Combinations(rest, takenBy - 1);
      var with := PrependAll(source[0], tails);
      forall i | 0 <= i < |with| ensures |with[i]| == takenBy {
        assert tails[i] in tails;
      }
      assert Combinations(source, takenBy) == with + Combinations(rest, takenBy);
    }
  }

  lemma {:induction false} SubsequenceOfTail<T>(c: seq<T>, s: seq<T>)
    requires s != [] && IsSubsequence(c, s[1..])
    ensures IsSubsequence(c, s)
  {
  }

  lemma {:induction false} SubsequenceReflexive<T>(s: seq<T>)
    ensures IsSubsequence(s, s)
  {
    if s != [] {
      SubsequenceReflexive(s[1..]);
    }
  }

  lemma {:induction false} SingletonIsSubsequence<T>(s: seq<T>, i: nat)
    requires i < |s|
    ensures IsSubsequence([s[i]], s)
  {
    if i == 0 {
      assert [s[0]][1..] == [];
    } else {
      SingletonIsSubsequence(s[1..], i - 1);
    }
  }

  /** A subsequence is no longer than its source, and one of equal length is the source itself. */
  lemma {:induction false} SubsequenceLength<T>(c: seq<T>, s: seq<T>)
    requires IsSubsequence(c, s)
    ensures |c| <= |s|
    ensures |c| == |s| ==> c == s
    decreases |s|
  {
    if c != [] {
      if c[0] == s[0] && IsSubsequence(c[1..], s[1..]) {
        SubsequenceLength(c[1..], s[1..]);
        if |c| == |s| {
          assert c == [c[0]] + c[1..] && s == [s[0]] + s[1..];
        }
      } else {
        SubsequenceLength(c, s[1..]);
      }
    }
  }

  /** Every combination is an order-preserving subsequence of the source. */
  lemma {:induction false} CombinationsAreSubsequences<T>(source: seq<T>, k: int)
    ensures forall c | c in Combinations(source, k) :: IsSubsequence(c, source)
    decreases |source|
  {
    var r := Combinations(source, k);
    if |source| == k {
      SubsequenceReflexive(source);
    } else if |source| == 0 || k == 0 {
    } else if k == 1 {
      forall c | c in r ensures IsSubsequence(c, source) {
        var i :| 0 <= i < |source| && c == [source[i]];
        SingletonIsSubsequence(source, i);
      }
    } else {
      var rest := source[1..];
      CombinationsAreSubsequences(rest, k - 1);
      CombinationsAreSubsequences(rest, k);
      var with := PrependAll(source[0], Combinations(rest, k - 1));
      forall c | c in r ensures IsSubsequence(c, source) {
        if c in with {
          var i :| 0 <= i < |with| && c == with[i];
          var t := Combinations(rest, k - 1)[i];
          assert c == [source[0]] + t && c[1..] == t;
        } else {
          SubsequenceOfTail(c, source);
        }
      }
    }
  }

  /** Conversely, every subsequence of length k >= 1 is among the combinations. */
  lemma {:induction false} CombinationsAreComplete<T>(source: seq<T>, k: int, c: seq<T>)
    requires k >= 1 && |c| == k && IsSubsequence(c, source)
    ensures c in Combinations(source, k)
    decreases |source|
  {
    SubsequenceLength(c, source);
    if |source| == k {
    } else if k == 1 {
      var s := source;
      if c[0] == s[0] && IsSubsequence(c[1..], s[1..]) {
        assert c == [s[0]];
        assert Combinations(source, k)[0] == c;
      } else {
        CombinationsAreComplete(s[1..], k, c);
        var j :| 0 <= j < |s[1..]| && Combinations(s[1..], k)[j] == c;
        assert Combinations(source, k)[j + 1] == c;
      }
    } else {
      var rest := source[1..];
      if c[0] == source[0] && IsSubsequence(c[1..], rest) {
        CombinationsAreComplete(rest, k - 1, c[1..]);
        var sub := Combinations(rest, k - 1);
        var i :| 0 <= i < |sub| && sub[i] == c[1..];
        assert PrependAll(source[0], sub)[i] == c;
      } else {
        SubsequenceLength(c, rest);
        CombinationsAreComplete(rest, k, c);
      }
    }
  }

  /** Asking for more elements than the source has gives no combination. */
  lemma {:induction false} CombinationsTooMany<T>(source: seq<T>, k: int)
    requires k > |source|
    ensures Combinations(source, k) == []
    decreases |source|
  {
    if source != [] && k != 1 {
      CombinationsTooMany(source[1..], k - 1);
      CombinationsTooMany(source[1..], k);
    }
  }

  /** Taking 0: one empty combination of the empty source, none of any other. */
  lemma CombinationsOfZero<T>(source: seq<T>)
    ensures Combinations(source, 0) == if source == [] then [[]] else []
  {
  }

  /** Taking all: exactly the source. */
  lemma CombinationsOfAll<T>(source: seq<T>)
    ensures Combinations(source, |source|) == [source]
  {
  }

  /** Taking 1: the singletons, in source order. */
  lemma CombinationsOfOne<T>(source: seq<T>)
    ensures Combinations(source, 1) == seq(|source|, i requires 0 <= i < |source| => [source[i]])
  {
    if |source| == 1 {
      assert source == [source[0]];
      assert [source] == seq(1, i requires 0 <= i < 1 => [source[i]]);
    }
  }

  lemma {:induction false} BinomialAll(n: nat)
    ensures Binomial(n, n) == 1
  {
    if n > 0 {
      BinomialAll(n - 1);
      BinomialAbove(n - 1, n);
    }
  }

  lemma {:induction false} BinomialAbove(n: nat, k: nat)
    requires k > n
    ensures Binomial(n, k) == 0
  {
    if n > 0 {
      BinomialAbove(n - 1, k - 1);
      BinomialAbove(n - 1, k);
    }
  }

  lemma {:induction false} BinomialOne(n: nat)
    ensures Binomial(n, 1) == n
  {
    if n > 0 {
      BinomialOne(n - 1);
    }
  }

  lemma CombinationsLengthStep<T>(source: seq<T>, k: int)
    requires 1 < k != |source| && source != []
    ensures |Combinations(source, k)| == |Combinations(source[1..], k - 1)| + |Combinations(source[1..], k)|
  {
    var rest := source[1..];
    assert Combinations(source, k) == PrependAll(source[0], Combinations(rest, k - 1)) + Combinations(rest, k);
  }

  /** For every k >= 1 the generator returns C(|source|, k) combinations. */
  lemma {:induction false} CombinationsCount<T>(source: seq<T>, k: int)
    requires k >= 1
    ensures |Combinations(source, k)| == Binomial(|source|, k)
    decreases |source|
  {
    var n := |source|;
    if n == k {
      BinomialAll(n);
    } else if n == 0 {
    } else if k == 1 {
      BinomialOne(n);
    } else {
      var rest := source[1..];
      CombinationsCount(rest, k - 1);
      CombinationsCount(rest, k);
      CombinationsLengthStep(source, k);
      assert Binomial(n, k) == Binomial(n - 1, k - 1) + Binomial(n - 1, k);
    }
  }
}

=== FILE: deck.dfy ===
/**
 * The 81-card deck the engine builds at start: for each shape, each color,
 * each fill and each count (in declaration order) one card. Card number `i`
 * of the deck is described by the base-3 digits of `i`: shape, color, fill,
 * count, most significant first.
 */
module Deck {
  import opened Cards

  // `allCases` of each enum, in declaration order.
  const AllShapes: seq<Shape> := [Capsule, Eyebrow, Rhombus]
  const AllColors: seq<Color> := [Red, Green, Blue]
  const AllFills: seq<Fill> := [Empty, Hatch, Solid]
  const AllCounts: seq<Count> := [One, Two, Three]

  /** The card the four nested loops append in round `i` (counting from 0). */
  function DeckCard(i: int): Card
    requires 0 <= i < 81
  {
    Card(AllColors[(i / 9) % 3], AllFills[(i / 3) % 3], AllShapes[i / 27], CountRaw(AllCounts[i % 3]))
  }

  /** The deck, in the order the four nested loops build it. */
  function FullDeck(): seq<Card>
  {
    seq(81, i requires 0 <= i < 81 => DeckCard(i))
  }

  /** A card whose count is one of the Count raw values. */
  predicate ValidCard(c: Card)
  {
    1 <= c.count <= 3
  }

  /** The round of the nested loops in which card `c` is appended. */
  function CardIndex(c: Card): int
    requires ValidCard(c)
  {
    27 * ShapeRaw(c.shape) + 9 * ColorRaw(c.color) + 3 * FillRaw(c.fill) + c.count - 1
  }

  /** The `i`-th case of each enum has raw value `i` (counts start at 1). */
  lemma AllCasesRaw(i: nat)
    requires i < 3
    ensures ShapeRaw(AllShapes[i]) == i && ColorRaw(AllColors[i]) == i
    ensures FillRaw(AllFills[i]) == i && CountRaw(AllCounts[i]) == i + 1
  {
  }

  lemma DigitsAt(a: int, b: int, c: int, d: int)
    requires 0 <= a < 3 && 0 <= b < 3 && 0 <= c < 3 && 0 <= d < 3
    ensures var i := 27 * a + 9 * b + 3 * c + d;
      i / 27 == a && (i / 9) % 3 == b && (i / 3) % 3 == c && i % 3 == d
  {
  }

  lemma DigitsOf(i: int)
    requires 0 <= i < 81
    ensures i == 27 * (i / 27) + 9 * ((i / 9) % 3) + 3 * ((i / 3) % 3) + i % 3
  {
  }

  /**
   * Round `27 * si + 9 * ci + 3 * fi + ni` of the loops appends the card
   * with the `si`-th shape, `ci`-th color, `fi`-th fill and `ni`-th count.
   */
  lemma DeckCardAt(si: int, ci: int, fi: int, ni: int)
    requires 0 <= si < 3 && 0 <= ci < 3 && 0 <= fi < 3 && 0 <= ni < 3
    ensures DeckCard(27 * si + 9 * ci + 3 * fi + ni)
      == Card(AllColors[ci], AllFills[fi], AllShapes[si], CountRaw(AllCounts[ni]))
  {
    DigitsAt(si, ci, fi, ni);
  }

  /** Every card of the deck is valid and is appended in its own round. */
  lemma DeckCardIndex(i: int)
    requires 0 <= i < 81
    ensures ValidCard(DeckCard(i)) && CardIndex(DeckCard(i)) == i
  {
    DigitsOf(i);
    AllCasesRaw(i / 27);
    AllCasesRaw((i / 9) % 3);
    AllCasesRaw((i / 3) % 3);
    AllCasesRaw(i % 3);
  }

  /** Every valid card is appended in some round. */
  lemma IndexDeckCard(c: Card)
    requires ValidCard(c)
    ensures 0 <= CardIndex(c) < 81 && DeckCard(CardIndex(c)) == c
  {
    var si, ci, fi, ni := ShapeRaw(c.shape), ColorRaw(c.color), FillRaw(c.fill), c.count - 1;
    DeckCardAt(si, ci, fi, ni);
    AllCasesRaw(si);
    AllCasesRaw(ci);
    AllCasesRaw(fi);
    AllCasesRaw(ni);
  }

  ghost predicate Distinct<T>(s: seq<T>)
  {
    forall i, j | 0 <= i < j < |s| :: s[i] != s[j]
  }

  /**
   * The deck has 81 pairwise-distinct cards: every combination of shape,
   * color, fill and a count from 1 to 3 appears, and nothing else.
   */
  lemma FullDeckSpec()
    ensures |FullDeck()| == 81
    ensures Distinct(FullDeck())
    ensures forall x :: x in FullDeck() <==> ValidCard(x)
  {
    var d := FullDeck();
    forall i, j | 0 <= i < j < |d| ensures d[i] != d[j] {
      DeckCardIndex(i);
      DeckCardIndex(j);
    }
    forall x ensures x in d <==> ValidCard(x) {
      if ValidCard(x) {
        IndexDeckCard(x);
        assert d[CardIndex(x)] == x;
      }
      if x in d {
        var i :| 0 <= i < |d| && d[i] == x;
        DeckCardIndex(i);
      }
    }
  }

  /** In a sequence without duplicates every element occurs once. */
  lemma {:induction false} DistinctMultiplicity<T>(s: seq<T>, x: T)
    requires Distinct(s)
    ensures multiset(s)[x] <= 1
  {
    if s != [] {
      assert s == [s[0]] + s[1..];
      DistinctMultiplicity(s[1..], x);
      if x == s[0] {
        assert x !in s[1..];
      }
    }
  }

  lemma TwoOccurrences<T>(s: seq<T>, i: int, j: int)
    requires 0 <= i < j < |s| && s[i] == s[j]
    ensures multiset(s)[s[i]] >= 2
  {
    assert s[..j] + s[j..] == s;
    assert s[i] in s[..j] && s[j] in s[j..];
    assert multiset(s) == multiset(s[..j]) + multiset(s[j..]);
  }

  /** A sequence in which no element occurs twice has no duplicates. */
  lemma MultiplicityDistinct<T>(s: seq<T>)
    requires forall x :: multiset(s)[x] <= 1
    ensures Distinct(s)
  {
    forall i, j | 0 <= i < j < |s| ensures s[i] != s[j] {
      if s[i] == s[j] {
        TwoOccurrences(s, i, j);
      }
    }
  }

  /**
   * When the cards in the stock, on the table and out of play together make
   * up the deck, neither stock nor table holds a card twice, no card is in
   * both, and the three counts add up to 81.
   */
  lemma PartitionOfDeck(stock: seq<Card>, table: seq<Card>, outOfPlay: multiset<Card>)
    requires multiset(stock) + multiset(table) + outOfPlay == multiset(FullDeck())
    ensures Distinct(stock) && Distinct(table)
    ensures forall x | x in stock :: x !in table
    ensures |stock| + |table| + |outOfPlay| == 81
  {
    FullDeckSpec();
    forall x ensures multiset(FullDeck())[x] <= 1 {
      DistinctMultiplicity(FullDeck(), x);
    }
    var all := multiset(stock) + multiset(table) + outOfPlay;
    forall x ensures multiset(stock)[x] + multiset(table)[x] <= 1 {
      assert all[x] == multiset(stock)[x] + multiset(table)[x] + outOfPlay[x];
    }
    MultiplicityDistinct(stock);
    MultiplicityDistinct(table);
    forall x | x in stock ensures x !in table {
      assert multiset(stock)[x] >= 1;
    }
    assert |multiset(FullDeck())| == 81;
  }
}

=== FILE: engine.dfy ===
/**
 * The game engine: the two searches over the 3-combinations of a list of
 * cards, and the `Engine` object holding the stock and the table.
 *
 * Every call of `shuffled()` in the engine is modelled by a parameter
 * `shuffled` that the caller fills with an arbitrary permutation (same
 * multiset) of the sequence being shuffled; every contract holds for every
 * such ordering.
 */
module GameEngine {
  import opened Wrappers
  import opened Cards
  import opened Deck
  import opened CardSort
  import opened Combinatorics
  import opened SetRules
  import opened ArrayExtensions

  /** `s` is `t` in some order: what `shuffled()` returns for `t`. */
  predicate IsShuffleOf<T(==)>(s: seq<T>, t: seq<T>)
    ensures IsShuffleOf(s, t) ==> |s| == |t|
  {
    assert |multiset(s)| == |s| && |multiset(t)| == |t|;
    multiset(s) == multiset(t)
  }

  /** `draw` fills the table up to this many cards. */
  const TableSize := 12
  /** `addCards` fills the table up to this many cards. */
  const ExtendedTableSize := 15

  // ---------------------------------------------------------------------
  // findSet

  /**
   * `findSet` passes over a set equal, as sorted cards, to `except` — but
   * only when there is more than one combination to choose from.
   */
  predicate Excluded(c: seq<Card>, except: Option<seq<Card>>, many: bool)
  {
    many && except.Some? && SortCards(except.value) == SortCards(c)
  }

  /** A combination `findSet` returns when it meets it. */
  predicate Acceptable(c: seq<Card>, except: Option<seq<Card>>, many: bool)
  {
    IsSet(c) && !Excluded(c, except, many)
  }

  /** The first of `combos` that is a set and is not excluded. */
  function FirstSet(combos: seq<seq<Card>>, except: Option<seq<Card>>, many: bool): Option<seq<Card>>
  {
    if combos == [] then None
    else if Acceptable(combos[0], except, many) then Some(combos[0])
    else FirstSet(combos[1..], except, many)
  }

  /** What `FirstSet` finds is an acceptable member of `combos`, and no earlier member is acceptable. */
  lemma {:induction false} FirstSetFound(combos: seq<seq<Card>>, except: Option<seq<Card>>, many: bool)
    requires FirstSet(combos, except, many).Some?
    ensures var r := FirstSet(combos, except, many).value;
      exists i | 0 <= i < |combos| :: combos[i] == r && Acceptable(r, except, many) &&
        forall j | 0 <= j < i :: !Acceptable(combos[j], except, many)
  {
    var r := FirstSet(combos, except, many).value;
    if !Acceptable(combos[0], except, many) {
      FirstSetFound(combos[1..], except, many);
      var i :| 0 <= i < |combos[1..]| && combos[1..][i] == r && Acceptable(r, except, many) &&
        forall j | 0 <= j < i :: !Acceptable(combos[1..][j], except, many);
      assert combos[i + 1] == r;
      assert forall j | 0 <= j < i + 1 :: !Acceptable(combos[j], except, many) by {
        forall j | 0 <= j < i + 1 ensures !Acceptable(combos[j], except, many) {
          if j > 0 {
            assert combos[j] == combos[1..][j - 1];
          }
        }
      }
    } else {
      assert combos[0] == r;
    }
  }

  /** `FirstSet` finds nothing exactly when no member of `combos` is acceptable. */
  lemma {:induction false} FirstSetNone(combos: seq<seq<Card>>, except: Option<seq<Card>>, many: bool)
    ensures FirstSet(combos, except, many).None? <==> forall c | c in combos :: !Acceptable(c, except, many)
  {
    if combos != [] {
      FirstSetNone(combos[1..], except, many);
      assert combos == [combos[0]] + combos[1..];
    }
  }

  /** What `FirstSet` finds is a member of `combos` that is a set and is not excluded. */
  lemma FirstSetMember(combos: seq<seq<Card>>, except: Option<seq<Card>>, many: bool)
    requires FirstSet(combos, except, many).Some?
    ensures var r := FirstSet(combos, except, many).value;
      r in combos && IsSet(r) && !Excluded(r, except, many)
  {
    FirstSetFound(combos, except, many);
  }

  /** Excluding `except` means excluding exactly the cards `except` holds, in any order. */
  lemma ExcludedIffSameCards(c: seq<Card>, except: Option<seq<Card>>, many: bool)
    ensures Excluded(c, except, many) <==> many && except.Some? && multiset(except.value) == multiset(c)
  {
    if except.Some? {
      SortEqualIffSameCards(except.value, c);
    }
  }

  /**
   * Every set among the 3-combinations of `cards` (if there is any) holds
   * the same cards as `except`, and is passed over because there is more
   * than one combination. This holds trivially when no combination is a set.
   */
  ghost predicate EveryCombinationExcluded(cards: seq<Card>, except: Option<seq<Card>>, many: bool)
  {
    forall c | c in Combinations(cards, 3) && IsSet(c) ::
      many && except.Some? && multiset(except.value) == multiset(c)
  }

  /**
   * `findSet(in:except:)`, over the combinations in the order `shuffled`
   * gives them.
   */
  method FindSet(cards: seq<Card>, except: Option<seq<Card>>, shuffled: seq<seq<Card>>)
    returns (r: Option<seq<Card>>)
    requires IsShuffleOf(shuffled, Combinations(cards, 3))
    ensures r == FirstSet(shuffled, except, |shuffled| > 1)
    ensures r.Some? ==> |r.value| == 3 && IsSubsequence(r.value, cards) && IsSet(r.value)
    ensures r.Some? && except.Some? && |shuffled| > 1 ==> multiset(r.value) != multiset(except.value)
    ensures r.None? <==> EveryCombinationExcluded(cards, except, |shuffled| > 1)
    ensures |cards| < 3 ==> r.None?
  {
    var many := |shuffled| > 1;
    r := None;
    for i := 0 to |shuffled|
      invariant FirstSet(shuffled, except, many) == FirstSet(shuffled[i..], except, many)
    {
      assert shuffled[i..] == [shuffled[i]] + shuffled[i + 1..];
      var setOfCards := shuffled[i];
      if IsSet(setOfCards) {
        if except.Some? && |shuffled| > 1 {
          if SortCards(except.value) == SortCards(setOfCards) {
            continue;
          }
        }
        r := Some(setOfCards);
        break;
      }
    }
    if r.Some? {
      FindSetSome(cards, except, shuffled);
    }
    FindSetNone(cards, except, shuffled);
    FindSetTooFewCards(cards, except, shuffled);
  }

  /** A shuffle holds the same elements as what was shuffled. */
  lemma ShuffleMembers<T>(shuffled: seq<T>, s: seq<T>)
    requires IsShuffleOf(shuffled, s)
    ensures forall c :: c in shuffled <==> c in s
  {
    forall c ensures c in shuffled <==> c in s {
      assert c in shuffled <==> c in multiset(shuffled);
    }
  }

  lemma FindSetTooFewCards(cards: seq<Card>, except: Option<seq<Card>>, shuffled: seq<seq<Card>>)
    requires IsShuffleOf(shuffled, Combinations(cards, 3))
    ensures |cards| < 3 ==> FirstSet(shuffled, except, |shuffled| > 1).None?
  {
    if |cards| < 3 {
      CombinationsTooMany(cards, 3);
      assert shuffled == [];
    }
  }

  lemma FindSetSome(cards: seq<Card>, except: Option<seq<Card>>, shuffled: seq<seq<Card>>)
    requires IsShuffleOf(shuffled, Combinations(cards, 3))
    requires FirstSet(shuffled, except, |shuffled| > 1).Some?
    ensures var r := FirstSet(shuffled, except, |shuffled| > 1).value;
      |r| == 3 && IsSubsequence(r, cards) && IsSet(r) &&
      (except.Some? && |shuffled| > 1 ==> multiset(r) != multiset(except.value))
  {
    var many := |shuffled| > 1;
    var r := FirstSet(shuffled, except, many).value;
    FirstSetMember(shuffled, except, many);
    ShuffleMembers(shuffled, Combinations(cards, 3));
    CombinationsHaveLength(cards, 3);
    CombinationsAreSubsequences(cards, 3);
    ExcludedIffSameCards(r, except, many);
  }

  lemma FindSetNone(cards: seq<Card>, except: Option<seq<Card>>, shuffled: seq<seq<Card>>)
    requires IsShuffleOf(shuffled, Combinations(cards, 3))
    ensures FirstSet(shuffled, except, |shuffled| > 1).None? <==>
      EveryCombinationExcluded(cards, except, |shuffled| > 1)
  {
    var many := |shuffled| > 1;
    FirstSetNone(shuffled, except, many);
    ShuffleMembers(shuffled, Combinations(cards, 3));
    forall c ensures Excluded(c, except, many) <==> many && except.Some? && multiset(except.value) == multiset(c) {
      ExcludedIffSameCards(c, except, many);
    }
  }

  // ---------------------------------------------------------------------
  // findAllSets

  /** The sets among `combos`, in their order. */
  function SetsAmong(combos: seq<seq<Card>>): seq<seq<Card>>
  {
    if combos == [] then []
    else
      var last := combos[|combos| - 1];
      SetsAmong(combos[..|combos| - 1]) + if IsSet(last) then [last] else []
  }

  /** `SetsAmong` keeps every set of `combos`, as often as it occurs there, and nothing else. */
  lemma {:induction false} SetsAmongMultiplicity(combos: seq<seq<Card>>, c: seq<Card>)
    ensures multiset(SetsAmong(combos))[c] == if IsSet(c) then multiset(combos)[c] else 0
  {
    if combos != [] {
      var init, last := combos[..|combos| - 1], combos[|combos| - 1];
      SetsAmongMultiplicity(init, c);
      assert combos == init + [last];
    }
  }

  /** Reordering the combinations only reorders the sets found among them. */
  lemma SetsAmongPermutation(a: seq<seq<Card>>, b: seq<seq<Card>>)
    requires multiset(a) == multiset(b)
    ensures multiset(SetsAmong(a)) == multiset(SetsAmong(b))
  {
    forall c ensures multiset(SetsAmong(a))[c] == multiset(SetsAmong(b))[c] {
      SetsAmongMultiplicity(a, c);
      SetsAmongMultiplicity(b, c);
    }
  }

  /**
   * With no exclusion, the first search finds nothing exactly when the
   * second finds no set at all.
   */
  lemma FirstSetNoneIffNoSets(combos: seq<seq<Card>>, many: bool)
    ensures FirstSet(combos, None, many).None? <==> SetsAmong(combos) == []
  {
    FirstSetNone(combos, None, many);
    if SetsAmong(combos) != [] {
      var c := SetsAmong(combos)[0];
      SetsAmongMultiplicity(combos, c);
      assert c in multiset(SetsAmong(combos));
      assert c in multiset(combos) && Acceptable(c, None, many);
    } else {
      forall c | c in combos ensures !Acceptable(c, None, many) {
        SetsAmongMultiplicity(combos, c);
        assert c in multiset(combos);
      }
    }
  }

  /**
   * `findAllSets(in:)`: the sets among the combinations, in the order
   * `shuffled` gives them.
   */
  method FindAllSets(cards: seq<Card>, shuffled: seq<seq<Card>>) returns (sets: seq<seq<Card>>)
    requires IsShuffleOf(shuffled, Combinations(cards, 3))
    ensures sets == SetsAmong(shuffled)
    ensures multiset(sets) == multiset(SetsAmong(Combinations(cards, 3)))
    ensures forall c | c in sets :: |c| == 3 && IsSubsequence(c, cards) && IsSet(c)
  {
    sets := [];
    for i := 0 to |shuffled|
      invariant sets == SetsAmong(shuffled[..i])
    {
      assert shuffled[..i + 1][..i] == shuffled[..i];
      if IsSet(shuffled[i]) {
        sets := sets + [shuffled[i]];
      }
    }
    assert shuffled[..|shuffled|] == shuffled;
    FindAllSetsResult(cards, shuffled);
  }

  lemma FindAllSetsResult(cards: seq<Card>, shuffled: seq<seq<Card>>)
    requires IsShuffleOf(shuffled, Combinations(cards, 3))
    ensures multiset(SetsAmong(shuffled)) == multiset(SetsAmong(Combinations(cards, 3)))
    ensures forall c | c in SetsAmong(shuffled) :: |c| == 3 && IsSubsequence(c, cards) && IsSet(c)
  {
    SetsAmongPermutation(shuffled, Combinations(cards, 3));
    CombinationsHaveLength(cards, 3);
    CombinationsAreSubsequences(cards, 3);
    forall c | c in SetsAmong(shuffled) ensures |c| == 3 && IsSubsequence(c, cards) && IsSet(c) {
      SetsAmongMultiplicity(shuffled, c);
      assert c in multiset(SetsAmong(shuffled));
      assert c in multiset(shuffled);
    }
  }

  /**
   * Every set of three cards of `cards`, taken in their order, is found by
   * `findAllSets`, whatever the shuffle.
   */
  lemma FindAllSetsComplete(cards: seq<Card>, shuffled: seq<seq<Card>>, c: seq<Card>)
    requires IsShuffleOf(shuffled, Combinations(cards, 3))
    requires |c| == 3 && IsSubsequence(c, cards) && IsSet(c)
    ensures c in SetsAmong(shuffled)
  {
    CombinationsAreComplete(cards, 3, c);
    assert c in multiset(shuffled);
    SetsAmongMultiplicity(shuffled, c);
    assert c in multiset(SetsAmong(shuffled));
  }

  // ---------------------------------------------------------------------
  // The engine

  /**
   * Taking the first `n` cards of a shuffled stock out of the stock leaves
   * `n` fewer cards, and the taken cards with the rest make up the stock.
   */
  lemma TakeFromShuffled(stock: seq<Card>, shuffled: seq<Card>, n: nat)
    requires IsShuffleOf(shuffled, stock) && n <= |stock|
    ensures multiset(Without(stock, shuffled[..n])) + multiset(shuffled[..n]) == multiset(stock)
    ensures |Without(stock, shuffled[..n])| == |stock| - n
  {
    assert shuffled == shuffled[..n] + shuffled[n..];
    assert multiset(shuffled[..n]) <= multiset(stock);
    WithoutContained(stock, shuffled[..n]);
  }

  /**
   * The engine: the cards still in the stock and the cards on the table.
   * The ghost `outOfPlay` collects the cards taken out of the game, so that
   * stock, table and out-of-play cards always make up the deck.
   */
  class Engine {
    var cardStock: seq<Card>
    var cardsOnTable: seq<Card>
    ghost var outOfPlay: multiset<Card>

    ghost predicate Valid()
      reads this
    {
      multiset(cardStock) + multiset(cardsOnTable) + outOfPlay == multiset(FullDeck())
    }

    /** `init(players:)`: the full deck in the stock, nothing on the table. */
    constructor ()
      ensures Valid()
      ensures cardStock == FullDeck() && cardsOnTable == [] && outOfPlay == multiset{}
    {
      var cards: seq<Card> := [];
      for si := 0 to 3
        invariant |cards| == 27 * si
        invariant forall j | 0 <= j < |cards| :: cards[j] == DeckCard(j)
      {
        for ci := 0 to 3
          invariant |cards| == 27 * si + 9 * ci
          invariant forall j | 0 <= j < |cards| :: cards[j] == DeckCard(j)
        {
          for fi := 0 to 3
            invariant |cards| == 27 * si + 9 * ci + 3 * fi
            invariant forall j | 0 <= j < |cards| :: cards[j] == DeckCard(j)
          {
            for ni := 0 to 3
              invariant |cards| == 27 * si + 9 * ci + 3 * fi + ni
              invariant forall j | 0 <= j < |cards| :: cards[j] == DeckCard(j)
            {
              DeckCardAt(si, ci, fi, ni);
              cards := cards + [Card(AllColors[ci], AllFills[fi], AllShapes[si], CountRaw(AllCounts[ni]))];
            }
          }
        }
      }
      assert cards == FullDeck();
      cardStock := cards;
      cardsOnTable := [];
      outOfPlay := multiset{};
    }

    /**
     * Moves the first `bound - |cardsOnTable|` cards of `shuffled` from the
     * stock to the table, or does nothing when the table already holds
     * `bound` cards. Shared by `draw` and `addCards`, which differ only in
     * the bound and in what they return.
     */
    method FillTable(bound: int, shuffled: seq<Card>) returns (newCards: seq<Card>)
      requires Valid()
      requires IsShuffleOf(shuffled, cardStock)
      requires |cardsOnTable| < bound ==> bound - |cardsOnTable| <= |cardStock|
      modifies this
      ensures Valid()
      ensures old(|cardsOnTable|) >= bound ==> newCards == [] && unchanged(this)
      ensures old(|cardsOnTable|) < bound ==>
        newCards == shuffled[..bound - old(|cardsOnTable|)] &&
        cardStock == Without(old(cardStock), newCards) &&
        cardsOnTable == old(cardsOnTable) + newCards &&
        |cardsOnTable| == bound &&
        |cardStock| == old(|cardStock|) - |newCards|
      ensures multiset(cardStock) + multiset(cardsOnTable) == old(multiset(cardStock) + multiset(cardsOnTable))
      ensures outOfPlay == old(outOfPlay)
    {
      if |cardsOnTable| >= bound {
        return [];
      }
      newCards := shuffled[..bound - |cardsOnTable|];
      TakeFromShuffled(cardStock, shuffled, |newCards|);
      var removed;
      cardStock, removed := RemoveObjects(cardStock, newCards);
      cardsOnTable := cardsOnTable + newCards;
      assert multiset(cardsOnTable) == old(multiset(cardsOnTable)) + multiset(newCards);
      assert multiset(cardStock) + multiset(newCards) == old(multiset(cardStock));
    }

    /**
     * `draw()`: fills the table up to 12 cards from the shuffled stock and
     * returns the new cards; a table of 12 or more is returned unchanged.
     */
    method Draw(shuffled: seq<Card>) returns (r: seq<Card>)
      requires Valid()
      requires IsShuffleOf(shuffled, cardStock)
      requires |cardsOnTable| < TableSize ==> TableSize - |cardsOnTable| <= |cardStock|
      modifies this
      ensures Valid()
      ensures old(|cardsOnTable|) >= TableSize ==> r == cardsOnTable && unchanged(this)
      ensures old(|cardsOnTable|) < TableSize ==>
        r == shuffled[..TableSize - old(|cardsOnTable|)] &&
        cardStock == Without(old(cardStock), r) &&
        cardsOnTable == old(cardsOnTable) + r &&
        |cardsOnTable| == TableSize &&
        |cardStock| == old(|cardStock|) - |r|
      ensures multiset(cardStock) + multiset(cardsOnTable) == old(multiset(cardStock) + multiset(cardsOnTable))
      ensures outOfPlay == old(outOfPlay)
    {
      if |cardsOnTable| >= TableSize {
        return cardsOnTable;
      }
      r := FillTable(TableSize, shuffled);
    }

    /**
     * `addCards()`: fills the table up to 15 cards from the shuffled stock
     * and returns the whole table.
     */
    method AddCards(shuffled: seq<Card>) returns (r: seq<Card>)
      requires Valid()
      requires IsShuffleOf(shuffled, cardStock)
      requires |cardsOnTable| < ExtendedTableSize ==> ExtendedTableSize - |cardsOnTable| <= |cardStock|
      modifies this
      ensures Valid()
      ensures r == cardsOnTable
      ensures old(|cardsOnTable|) >= ExtendedTableSize ==> unchanged(this)
      ensures old(|cardsOnTable|) < ExtendedTableSize ==>
        var added := shuffled[..ExtendedTableSize - old(|cardsOnTable|)];
        cardStock == Without(old(cardStock), added) &&
        cardsOnTable == old(cardsOnTable) + added &&
        |cardsOnTable| == ExtendedTableSize &&
        |cardStock| == old(|cardStock|) - |added|
      ensures multiset(cardStock) + multiset(cardsOnTable) == old(multiset(cardStock) + multiset(cardsOnTable))
      ensures outOfPlay == old(outOfPlay)
    {
      var added := FillTable(ExtendedTableSize, shuffled);
      r := cardsOnTable;
    }

    /**
     * `setFound(set:)`: takes one occurrence of each given card off the
     * table, without checking that the cards form a set or lie on the
     * table, and returns the table.
     */
    method SetFound(found: seq<Card>) returns (r: seq<Card>)
      requires Valid()
      modifies this
      ensures Valid()
      ensures r == cardsOnTable
      ensures cardsOnTable == Without(old(cardsOnTable), found)
      ensures multiset(cardsOnTable) == old(multiset(cardsOnTable)) - multiset(found)
      ensures cardStock == old(cardStock)
      ensures outOfPlay == old(outOfPlay) + (old(multiset(cardsOnTable)) - multiset(cardsOnTable))
    {
      var removed;
      cardsOnTable, removed := RemoveObjects(cardsOnTable, found);
      outOfPlay := outOfPlay + (old(multiset(cardsOnTable)) - multiset(cardsOnTable));
      r := cardsOnTable;
    }

    /** `removeFromTable(cards:)`: takes one occurrence of each given card off the table. */
    method RemoveFromTable(cards: seq<Card>)
      requires Valid()
      modifies this
      ensures Valid()
      ensures cardsOnTable == Without(old(cardsOnTable), cards)
      ensures multiset(cardsOnTable) == old(multiset(cardsOnTable)) - multiset(cards)
      ensures cardStock == old(cardStock)
      ensures outOfPlay == old(outOfPlay) + (old(multiset(cardsOnTable)) - multiset(cardsOnTable))
    {
      var removed;
      cardsOnTable, removed := RemoveObjects(cardsOnTable, cards);
      outOfPlay := outOfPlay + (old(multiset(cardsOnTable)) - multiset(cardsOnTable));
    }

    /**
     * `getCardsFromStock(count:)`: takes the first `count` cards of the
     * shuffled stock out of the stock, one by one, and hands them out.
     */
    method GetCardsFromStock(count: int, shuffled: seq<Card>) returns (cards: seq<Card>)
      requires Valid()
      requires IsShuffleOf(shuffled, cardStock)
      requires count > 0 ==> count <= |cardStock|
      modifies this
      ensures Valid()
      ensures count <= 0 ==> cards == [] && unchanged(this)
      ensures count > 0 ==> cards == shuffled[..count]
      ensures cardStock == Without(old(cardStock), cards)
      ensures |cardStock| == old(|cardStock|) - |cards|
      ensures cardsOnTable == old(cardsOnTable)
      ensures outOfPlay == old(outOfPlay) + multiset(cards)
    {
      if count <= 0 {
        return [];
      }
      cards := shuffled[..count];
      TakeFromShuffled(cardStock, shuffled, count);
      var stock := cardStock;
      for i := 0 to |cards|
        invariant stock == Without(cardStock, cards[..i])
        invariant unchanged(this)
      {
        assert cards[..i + 1][..i] == cards[..i];
        var index;
        stock, index := RemoveObject(stock, cards[i]);
      }
      assert cards[..|cards|] == cards;
      cardStock := stock;
      outOfPlay := outOfPlay + multiset(cards);
      assert multiset(cardStock) + multiset(cardsOnTable) + outOfPlay
        == (multiset(cardStock) + multiset(cards)) + multiset(cardsOnTable) + old(outOfPlay);
    }
  }

  /**
   * While the engine is valid no card is in the stock or on the table
   * twice, no card is in both, and stock, table and out-of-play cards
   * number 81 together.
   */
  lemma ValidEngineCards(e: Engine)
    requires e.Valid()
    ensures Distinct(e.cardStock) && Distinct(e.cardsOnTable)
    ensures forall x | x in e.cardStock :: x !in e.cardsOnTable
    ensures |e.cardStock| + |e.cardsOnTable| + |e.outOfPlay| == 81
  {
    PartitionOfDeck(e.cardStock, e.cardsOnTable, e.outOfPlay);
  }
}

=== FILE: set_rules.dfy ===
/**
 * The rule of the game: three cards form a set when, for each of fill,
 * shape, color and count, their values are all equal or all different.
 */
module SetRules {
  import opened Cards

  /** The three values are pairwise distinct, or all equal (one `setOf*` helper). */
  predicate SameOrAllDifferent<T(==)>(xs: seq<T>)
    requires |xs| == 3
  {
    (xs[0] != xs[1] && xs[0] != xs[2] && xs[1] != xs[2]) ||
    (xs[0] == xs[1] && xs[0] == xs[2] && xs[1] == xs[2])
  }

  // The attribute columns of a list of cards (`compactMap`).

  function Fills(cards: seq<Card>): (r: seq<Fill>)
    ensures |r| == |cards|
  {
    seq(|cards|, i requires 0 <= i < |cards| => cards[i].fill)
  }

  function Shapes(cards: seq<Card>): (r: seq<Shape>)
    ensures |r| == |cards|
  {
    seq(|cards|, i requires 0 <= i < |cards| => cards[i].shape)
  }

  function Colors(cards: seq<Card>): (r: seq<Color>)
    ensures |r| == |cards|
  {
    seq(|cards|, i requires 0 <= i < |cards| => cards[i].color)
  }

  function Counts(cards: seq<Card>): (r: seq<int>)
    ensures |r| == |cards|
  {
    seq(|cards|, i requires 0 <= i < |cards| => cards[i].count)
  }

  /** `isSet(of:)`: false unless exactly three cards are given. */
  predicate IsSet(cards: seq<Card>)
  {
    if |cards| != 3 then false
    else
      SameOrAllDifferent(Fills(cards)) &&
      SameOrAllDifferent(Shapes(cards)) &&
      SameOrAllDifferent(Colors(cards)) &&
      SameOrAllDifferent(Counts(cards))
  }

  /** A triple passes an attribute test exactly when no value occurs exactly twice. */
  lemma SameOrAllDifferentByMultiplicity<T>(xs: seq<T>)
    requires |xs| == 3
    ensures SameOrAllDifferent(xs) <==> forall v :: multiset(xs)[v] != 2
  {
    assert xs == [xs[0], xs[1], xs[2]];
    assert multiset(xs) == multiset{xs[0]} + multiset{xs[1]} + multiset{xs[2]};
    if !SameOrAllDifferent(xs) {
      if xs[0] == xs[1] {
        assert multiset(xs)[xs[0]] == 2;
      } else if xs[0] == xs[2] {
        assert multiset(xs)[xs[0]] == 2;
      } else {
        assert multiset(xs)[xs[1]] == 2;
      }
    }
  }

  /** Moving one card to the front of a list moves its attribute to the front of each column. */
  lemma ColumnsAfterRemoval(a: seq<Card>, j: nat)
    requires j < |a|
    ensures var rest := a[..j] + a[j + 1..];
      && multiset(Fills(a)) == multiset{a[j].fill} + multiset(Fills(rest))
      && multiset(Shapes(a)) == multiset{a[j].shape} + multiset(Shapes(rest))
      && multiset(Colors(a)) == multiset{a[j].color} + multiset(Colors(rest))
      && multiset(Counts(a)) == multiset{a[j].count} + multiset(Counts(rest))
  {
    var rest := a[..j] + a[j + 1..];
    assert Fills(a) == Fills(a[..j]) + [a[j].fill] + Fills(a[j + 1..]);
    assert Fills(rest) == Fills(a[..j]) + Fills(a[j + 1..]);
    assert Shapes(a) == Shapes(a[..j]) + [a[j].shape] + Shapes(a[j + 1..]);
    assert Shapes(rest) == Shapes(a[..j]) + Shapes(a[j + 1..]);
    assert Colors(a) == Colors(a[..j]) + [a[j].color] + Colors(a[j + 1..]);
    assert Colors(rest) == Colors(a[..j]) + Colors(a[j + 1..]);
    assert Counts(a) == Counts(a[..j]) + [a[j].count] + Counts(a[j + 1..]);
    assert Counts(rest) == Counts(a[..j]) + Counts(a[j + 1..]);
  }

  /** Each attribute column's multiset depends only on the multiset of cards. */
  lemma {:induction false} ColumnsOfPermutation(a: seq<Card>, b: seq<Card>)
    requires multiset(a) == multiset(b)
    ensures multiset(Fills(a)) == multiset(Fills(b))
    ensures multiset(Shapes(a)) == multiset(Shapes(b))
    ensures multiset(Colors(a)) == multiset(Colors(b))
    ensures multiset(Counts(a)) == multiset(Counts(b))
    decreases |a|
  {
    if a == [] {
      assert |multiset(b)| == 0;
    } else {
      assert a[0] in multiset(b);
      var j :| 0 <= j < |b| && b[j] == a[0];
      var rest := b[..j] + b[j + 1..];
      assert b == b[..j] + [b[j]] + b[j + 1..];
      assert a == [a[0]] + a[1..];
      assert multiset(a[1..]) == multiset(a) - multiset{a[0]};
      assert multiset(rest) == multiset(b) - multiset{a[0]};
      ColumnsOfPermutation(a[1..], rest);
      ColumnsAfterRemoval(a, 0);
      ColumnsAfterRemoval(b, j);
      assert a[..0] + a[1..] == a[1..];
    }
  }

  /** Whether three cards form a set does not depend on their order. */
  lemma IsSetPermutationInvariant(a: seq<Card>, b: seq<Card>)
    requires multiset(a) == multiset(b)
    ensures IsSet(a) == IsSet(b)
  {
    assert |a| == |multiset(a)| == |multiset(b)| == |b|;
    if |a| == 3 {
      ColumnsOfPermutation(a, b);
      SameOrAllDifferentByMultiplicity(Fills(a));
      SameOrAllDifferentByMultiplicity(Fills(b));
      SameOrAllDifferentByMultiplicity(Shapes(a));
      SameOrAllDifferentByMultiplicity(Shapes(b));
      SameOrAllDifferentByMultiplicity(Colors(a));
      SameOrAllDifferentByMultiplicity(Colors(b));
      SameOrAllDifferentByMultiplicity(Counts(a));
      SameOrAllDifferentByMultiplicity(Counts(b));
    }
  }

  /**
   * `isSet` restated: exactly three cards, and in no attribute column does
   * a value occur exactly twice.
   */
  lemma IsSetByMultiplicity(cards: seq<Card>)
    ensures IsSet(cards) <==>
      && |cards| == 3
      && (forall v :: multiset(Fills(cards))[v] != 2)
      && (forall v :: multiset(Shapes(cards))[v] != 2)
      && (forall v :: multiset(Colors(cards))[v] != 2)
      && (forall v :: multiset(Counts(cards))[v] != 2)
  {
    if |cards| == 3 {
      SameOrAllDifferentByMultiplicity(Fills(cards));
      SameOrAllDifferentByMultiplicity(Shapes(cards));
      SameOrAllDifferentByMultiplicity(Colors(cards));
      SameOrAllDifferentByMultiplicity(Counts(cards));
    }
  }

  /** Worked cases: color all different; fill all different; count two-and-one. */
  lemma IsSetExamples()
    ensures IsSet([Card(Red, Empty, Capsule, 1), Card(Green, Empty, Capsule, 1), Card(Blue, Empty, Capsule, 1)])
    ensures IsSet([Card(Red, Empty, Capsule, 1), Card(Red, Hatch, Capsule, 1), Card(Red, Solid, Capsule, 1)])
    ensures !IsSet([Card(Red, Empty, Capsule, 1), Card(Red, Empty, Capsule, 2), Card(Red, Solid, Capsule, 1)])
  {
  }
}

=== FILE: wrappers.dfy ===
/** The optional value the Swift source writes as `T?`. */
module Wrappers {

  datatype Option<+T> = None | Some(value: T)
}
